=== FILE: README.md ===
# Project Classifier — a Dafny model of the matching-and-bucketing engine

Project Classifier is a desktop tool. It reads a spreadsheet of project names
and sizes (investment, in units of 10,000 yuan) and a base directory whose
folder names only roughly match those names. It then does one of two things:

- **Classify** (`FileClassifier`): each record's folder is moved into a
  directory named after the record's size range.
- **Report** (`ReportGenerator`): a read-only table says, for every folder,
  which record it matches best and where it belongs.

This project models the core of that tool as pure Dafny functions over
immutable data, and proves its behaviour.

- **Range validation** (`RangeConfig`): `RangeConfigurator.get_ranges` turns
  the text triples of the range form (minimum, maximum, folder name) into an
  ordered list of half-open intervals `[min, max)` plus a list of errors. Each
  triple is checked on its own, in a fixed order: the minimum must be digits,
  the maximum must be digits or `"inf"`, the name must be non-empty, and min
  must be below max. The first failing check gives the triple's single error.
  The first-match lookup both engines bucket sizes with is defined here.
- **The base directory** (`FileSystem`): an ordered listing of entries. Each
  entry has a name, a directory flag and children. The module also holds the
  constructors' two path checks and the two filesystem operations a classify
  run uses: `os.makedirs(..., exist_ok=True)` and `shutil.move`.
- **Matching inputs** (`Matching`): a spreadsheet record is
  `Project(name, size)`. The size is `None` for a row the engine skips: in
  classify mode, a cell on which `float` raises `ValueError`. The
  similarity `difflib.SequenceMatcher(None, a, b).ratio()` is a `Scorer`
  parameter: any function into `[0, 1]`. Each call keeps the source's
  argument order. Classify scores `(project_name, folder)`. Report scores
  `(folder_name, project_name)`.
- **Classify** (`Classifier`): `_find_project_folder` takes the first
  directory in listing order that scores above 0.8. `_get_target_dir` gives an
  optional bucket. `run` is a fold over the records. The directory is listed
  again for every record, so a later record sees earlier moves, and bucket
  directories made by earlier records can be matched too (see
  `Scenarios.BucketDirectoryMatchedLater`). A move happens only when a record
  has a size, a matching folder and a bucket. The first filesystem error ends
  the run, and earlier moves stay in place.
- **Report** (`Report`): `_find_best_match` takes the earliest sized record
  with strictly the greatest score. A pool where every score is 0 gives no
  match. `_get_target_dir` returns the sentinel `未分类` when no range holds
  the size. `generate` goes one level into top-level directories named after
  a range label, and reports every other top-level directory as found in the
  base directory.

main2.2.py is the earlier version, without report mode. Its `get_ranges`
(main2.2.py:53-85), `_validate_paths` (159-165), `_find_project_folder`
(167-175), `_get_target_dir` (177-182) and `run` (184-201) are the same code
as main3.0.py:53-85, 182-188, 190-198, 200-205 and 207-224. One member models
both, and the table below cites whichever file's lines the row was checked
against. `ReportGenerator._validate` (main3.0.py:386-391) makes the same two
checks as `_validate_paths`, only raising `ValueError`. `FileSystem.ValidatePaths`
models both.

Modelling choices:

- A directory listing is a `seq<Entry>`. `os.listdir` order is the sequence
  order, and a directory made by `makedirs` is listed after the existing
  entries.
- Matches are returned as positions: in the listing for classify, in the
  record list for report. Python returns the joined path or the record's dict.
- Validation errors are a `RangeError` datatype. Each carries the value its
  Chinese message prints.
- `shutil.move(base/folder, base/dir)` is modelled for each case the classify
  run can reach:
  - Moving a path onto itself does nothing (`_samefile`, then a rename to the
    same path).
  - An absent destination makes the move a rename.
  - An existing directory receives the folder as its last child, unless it
    already holds that name ("Destination path already exists").
  - A destination that is a file fails.

## Model

| member | source | states |
|---|---|---|
| `RangeConfig.ValidateEntry` | main3.0.py:63-83 | a triple is accepted iff the min is digits, the max is `"inf"` or digits, the name is non-empty and min < max; an accepted range has min = int(min text) ≥ 0, an infinite max iff the text is `"inf"` and max = int(max text) otherwise, min < max and the given name; otherwise the error is the one of the first failing check, in the source's order |
| `RangeConfig.GetRanges` | main3.0.py:53-85 | every triple yields exactly one range or one error (`|ranges| + |errors| = |entries|`); every range is well-formed |
| `RangeConfig.GetRangesNoErrors` | main3.0.py:53-85 | the error list is empty iff every triple passes all of its checks |
| `RangeConfig.GetRangesConcat` | main2.2.py:58-85 | triples are validated independently and in order: the ranges and errors for `a + b` are those for `a` followed by those for `b` |
| `RangeConfig.GetRangesAllValid` | main2.2.py:58-83 | when no triple is rejected, the i-th range is the i-th triple, parsed |
| `RangeConfig.ShowNatRoundTrip` | main3.0.py:76-77 | `int(str(n)) == n` for every non-negative int, so the parse of a displayed bound is the bound |
| `RangeConfig.ValidateShow` | main3.0.py:39-83 | a well-formed range, shown the way the form shows it (`str(min)`, `str(max)`, the name), passes validation and comes back unchanged |
| `RangeConfig.GetRangesShowAll` | main3.0.py:53-85 | showing any list of well-formed ranges in the form and validating it gives back the same list, in order, with no error |
| `RangeConfig.DefaultRangesValidate` | main3.0.py:22-27 | the four default ranges are well-formed and pass validation unchanged |
| `RangeConfig.FirstContaining` | main3.0.py:202-203 | the position of the first range with `min <= size < max`, and nothing iff no range holds the size; earlier overlapping ranges win |
| `FileSystem.ValidatePaths` | main2.2.py:159-165 | no error iff the spreadsheet path is a file and the base directory is a directory; the spreadsheet check comes first |
| `FileSystem.MakeDirs` | main3.0.py:223 | fails iff the name is taken by a file, leaving the listing unchanged; an existing directory is left as it is and nothing else changes; otherwise the existing entries are kept, in order, the name then denotes a directory, and an absent name becomes a new empty directory at the end |
| `FileSystem.Move` | main3.0.py:224 | a failed move changes nothing; moving an entry onto its own name does nothing; an absent destination renames the entry |
| `FileSystem.MoveIntoDirectory` | main3.0.py:224 | moving into another existing directory fails iff it already holds the name; on success the entry leaves the top level, becomes that directory's last child, every other top-level entry is kept in order, and names stay unique |
| `FileSystem.MakeDirsWellFormed` | main3.0.py:223 | `makedirs` keeps a well-formed tree well-formed (unique names in every directory, files without children) |
| `FileSystem.MoveWellFormed` | main3.0.py:224 | `shutil.move` keeps a well-formed tree well-formed |
| `Classifier.FindProjectFolder` | main3.0.py:190-198 | the first directory in listing order with `ratio(project_name, folder) > 0.8`; earlier entries are files or score at most 0.8; nothing iff no directory exceeds 0.8; a file is never returned |
| `Classifier.TargetDir` | main2.2.py:177-182 | the name of the first range holding the size; nothing iff no range holds it |
| `Classifier.Step` | main3.0.py:214-224 | the directory is unchanged unless the record has a size, a matching folder and a bucket |
| `Classifier.Run` | main2.2.py:191-201 | a run over records that all lack a size leaves the directory unchanged |
| `Classifier.Classify` | main3.0.py:174-188 | construction fails, before the directory is touched, iff a path check fails, with that check's error; otherwise the result is the run |
| `Classifier.Relocate` | main3.0.py:223-224 | `makedirs` then `move`: a failure leaves the listing as it was and is either "target is a file" for the bucket or "destination exists" for the folder's name in it; an absent bucket never fails (the full effect is in `RelocateIntoNew` and `RelocateIntoExisting`) |
| `Classifier.RelocateIntoNew` | main3.0.py:223-224 | when the bucket name is absent, `makedirs` then `move` gives the listing without the folder, followed by a new bucket directory holding only the folder; names stay unique |
| `Classifier.RelocateIntoExisting` | main3.0.py:223-224 | when the bucket is another existing directory, `makedirs` changes nothing and the move fails iff the bucket already holds the folder's name; on success the folder is the bucket's last child and every other top-level entry is kept in order |
| `Classifier.StepMovesFolder` | main3.0.py:216-224 | for a sized record whose first matching directory is `k` and whose size has a bucket: a folder that is the bucket stays; otherwise the step fails iff the bucket name is a file or the bucket already holds the folder's name; on success the folder is gone from the top level, the bucket is a directory whose children are its old children plus the folder, and every other top-level entry is kept in order |
| `Classifier.StepWellFormed` | main2.2.py:198-201 | one record's step keeps the directory tree well-formed |
| `Classifier.RunWellFormed` | main3.0.py:214-224 | a run, finished or halted by an error, leaves the directory tree well-formed |
| `Classifier.RunConcat` | main3.0.py:214-224 | running `a + b` is running `a`, then `b` on the directory `a` left; an error during `a` ends the run and `b` has no effect |
| `Classifier.RunWithoutMatchIsIdle` | main2.2.py:167-201 | when no sized record scores above 0.8 against any directory, the run creates no directory and moves nothing |
| `Report.TargetDir` | main3.0.py:412-417 | the name of the first range holding the size, or `未分类` when no range holds it |
| `Report.TargetDirsAgree` | main3.0.py:412-417 | the report's bucket is the classifier's bucket, or `未分类` where the classifier has none |
| `Report.BestFrom` | main3.0.py:425-431 | from any correct intermediate state, the rest of the loop yields the earliest sized record of strictly greatest score above 0, or no record and 0.0 |
| `Report.FindBestMatch` | main3.0.py:419-432 | skips records without a size; returns the earliest sized record of strictly greatest `ratio(folder_name, name)`; returns no record and 0.0 iff every sized record scores 0; the score lies in [0, 1] |
| `Report.BestOverUnique` | main3.0.py:429-431 | the best-match conditions leave no choice: ties always go to the earliest record |
| `Report.UnsizedRecordIgnored` | main3.0.py:426-427 | inserting a record without a size anywhere changes neither the score nor the matched record |
| `Report.RowAt` | main3.0.py:470-482 | a folder gets one row iff some sized record scores above 0; the row names the folder and its location, and reports the best match's name, size and score (in (0, 1]) and the category of that size |
| `Report.BucketRows` | main3.0.py:449-467 | every row from a bucket directory describes a best match, is located in that bucket, and names one of its subdirectories |
| `Report.EntryRows` | main3.0.py:442-482 | a file yields no row; a bucket directory yields rows for its subdirectories located in the bucket; any other directory yields at most one row, its own, located in the base directory, and yields it iff some sized record scores above 0 |
| `Report.Generate` | main3.0.py:442-482 | every report row describes a best match and names a folder found in the listing where its location says |
| `Report.GenerateConcat` | main3.0.py:442 | rows follow listing order: the report of `a + b` is that of `a` followed by that of `b` |
| `Report.BucketRowsConcat` | main3.0.py:450-452 | rows from a bucket directory follow its listing order |
| `Report.EntryRowsInGenerate` | main3.0.py:442-482 | every row any top-level entry yields is in the report |
| `Report.TopLevelFolderReported` | main3.0.py:468-482 | a top-level directory not named after a range gets its row, located in the base directory, whenever some sized record scores above 0 |
| `Report.BucketFolderReported` | main3.0.py:449-467 | a subdirectory of a bucket directory gets its row, located in the bucket, whenever some sized record scores above 0 |
| `Report.UnsizedRecordLeavesRow` | main3.0.py:426-427 | a record without a size does not change any folder's row |
| `Report.UnsizedRecordLeavesBucketRows` | main3.0.py:449-467 | a record without a size does not change the rows of a bucket directory |
| `Report.UnsizedRecordLeavesReport` | main3.0.py:442-482 | a record without a size does not change the report |
| `Report.GenerateReport` | main3.0.py:378-391 | construction fails, before any row is built, iff a path check fails, with that check's error; otherwise the result is the report |
| `Scenarios.MalformedMaximumRejected` | main3.0.py:68-70 | `[("0","500","A"), ("500","abc","B")]` gives the range `[0, 500)` "A" and one error naming `"abc"` |
| `Scenarios.InvertedRangeRejected` | main3.0.py:79-81 | `[("10","5","A")]` gives no range and the error `10 >= 5` |
| `Scenarios.EmptyMinimumRejected` | main3.0.py:64-66 | an empty minimum is rejected as not being a number |
| `Scenarios.FullwidthRangeAccepted` | main3.0.py:64-83 | the fullwidth triple `("５００", "１０００", "X")` is accepted as the range `[500, 1000)` "X", as `isdigit` and `int()` accept it |
| `Scenarios.LargeSizeIsBig` | main3.0.py:200-205 | with ranges `[0, 500)` "Small" and `[500, inf)` "Big", size 100000 goes to "Big" in both engines |
| `Scenarios.AlphaMovedIntoSmall` | main3.0.py:214-224 | record `("Alpha_Project", 300)` moves folder "Alpha Project" into a newly made "Small" |
| `Scenarios.UnparsedSizeIgnored` | main3.0.py:216-219 | a record whose size did not parse moves nothing |
| `Scenarios.BucketDirectoryMatchedLater` | main2.2.py:191-201 | a bucket directory made for one record is listed for the next one, which can match it and move it into another bucket |
| `Scenarios.ReportTiesAndMisses` | main3.0.py:419-482 | the report skips files, skips a folder with no match above 0, and breaks a tie between sized records in favour of the earlier one |

## Left out

- The Tk interface (`FileClassifierApp`, the frames, the help window) is presentation only. So is the message that shows validation errors. The 2.2 frame validates a freshly built configurator instead of the one on screen (main2.2.py:282-283); this is part of the interface wiring, not the engine.
- `AppConfig` loading and saving the JSON settings file (main3.0.py:227-255) is file I/O for persisted settings.
- `difflib.SequenceMatcher.ratio` is a foreign library. It is a parameter bounded to [0, 1], not reimplemented, so symmetry and `ratio(s, s) = 1` are not assumed.
- Reading the spreadsheet with pandas is left out. Records come in already parsed. A failure to open the file (`ValueError` from `run` and `_read_excel_data`) is not modelled.
- `_read_excel_data` drops a row whose size does not parse, and keeps a row that has no size column with size `None`. Both kinds become `Project(name, None)` here. `Report.UnsizedRecordLeavesReport` proves the difference cannot show in the report.
- Writing the CSV file, finding the Desktop directory and the timestamped file name (main3.0.py:484-500) are left out. The report is the row sequence. The base directory's name (`os.path.basename(base_dir)`) is a parameter.
- Real `os` / `shutil` calls, symbolic links and partial failure inside a move (for example a cross-device copy that stops halfway) are left out. A move is an abstract update of the tree that either happens entirely or raises.
- Classify mode's `run` catches only `ValueError` and `IndexError` around `float(row[1])` (main3.0.py:216-219, main2.2.py:193-196). Any other exception ends the run: `TypeError` from a date cell, or `KeyError` from `row[1]` on a one-column sheet. The model has no such records: every record is sized or skipped, and the run can end only on a filesystem error.
- Where a new entry is listed is fixed by assumption. A directory made by `makedirs` comes after the existing entries, and a moved folder is its bucket's last child. `os.listdir` order is up to the filesystem (NTFS lists by name, for example). That order decides which folder a later record matches first (main3.0.py:192-197) and the order of report rows, so results on such a filesystem can differ from the model.
- Names compare by exact string equality, as on a case-sensitive filesystem. On a case-insensitive one (Windows, and macOS by default) `makedirs("Small")` finds an existing `small`, and the move goes into it. The model instead adds a second entry `Small`.
- Folder names containing a path separator, and names such as `.` or `..`, are not modelled; every name is one path component.
- Sizes are reals. NaN from an empty cell, infinite sizes, and float rounding near the 0.8 threshold are not modelled.
- A digit is an ASCII digit or a fullwidth one (U+FF10 to U+FF19). Python's `isdigit` and `int()` also accept the decimal digits of other scripts, such as Arabic-Indic `٥`. The source accepts ranges written in them, and the model rejects them with `MinNotDigits` or `MaxNotNumeric`.
- `isdigit` is also true of digit characters that are not decimal, such as `²` or `①`. On those, `int()` raises `ValueError`, which escapes `get_ranges` (main3.0.py:76-77). The model has no such exception: it rejects the triple as not being a number.

=== FILE: classifier.dfy ===
/** The classify engine (`FileClassifier`): for every spreadsheet record
    in order, re-list the base directory, take the first directory whose
    name is similar enough to the record's name, and move it into the
    directory named after the record's size range. */
module Classifier {
  import opened Wrappers
  import opened RangeConfig
  import opened FileSystem
  import opened Matching

  /** `_find_project_folder`'s test: a directory whose name scores above
      the threshold, scored as `ratio(project_name, folder)`. */
  predicate Matches(projectName: string, e: Entry, sim: Scorer) {
    e.isDir && sim(projectName, e.name) > Threshold
  }

  /** `_find_project_folder`: the first entry of the listing that matches,
      in listing order; files are passed over. */
  function FindProjectFolder(projectName: string, listing: seq<Entry>, sim: Scorer): (r: Option<nat>)
    ensures r.Some? ==>
      && r.value < |listing|
      && listing[r.value].isDir
      && sim(projectName, listing[r.value].name) > Threshold
      && forall j :: 0 <= j < r.value ==> !Matches(projectName, listing[j], sim)
    ensures r.None? <==> forall j :: 0 <= j < |listing| ==> !Matches(projectName, listing[j], sim)
    decreases |listing|
  {
    if |listing| == 0 then None
    else if Matches(projectName, listing[0], sim) then Some(0)
    else match FindProjectFolder(projectName, listing[1..], sim)
      case None => None
      case Some(k) =>
        assert forall j :: 1 <= j <= k + 1 ==> listing[j] == listing[1..][j - 1];
        Some(k + 1)
  }

  /** `_get_target_dir` of the classifier: the folder name of the first
      range holding the size, or nothing when no range holds it. */
  function TargetDir(ranges: seq<Range>, size: real): (r: Option<string>)
    ensures r.None? <==> forall j :: 0 <= j < |ranges| ==> !Contains(ranges[j], size)
    ensures r.Some? ==>
      exists k: nat :: IsFirstContaining(ranges, size, k) && r.value == ranges[k].dirName
  {
    match FirstContaining(ranges, size)
    case Some(k) => Some(ranges[k].dirName)
    case None => None
  }

  /** One iteration of `run` for one record. */
  function Step(listing: seq<Entry>, ranges: seq<Range>, sim: Scorer, p: Project): (o: Outcome)
    ensures o != Done(listing) ==>
      && p.size.Some?
      && FindProjectFolder(p.name, listing, sim).Some?
      && TargetDir(ranges, p.size.value).Some?
  {
    match p.size
    case None => Done(listing)
    case Some(size) =>
      match FindProjectFolder(p.name, listing, sim)
      case None => Done(listing)
      case Some(k) =>
        match TargetDir(ranges, size)
        case None => Done(listing)
        case Some(dir) => Relocate(listing, k, dir)
  }

  /** The two calls made once a record has a folder and a bucket:
      `os.makedirs(target_dir, exist_ok=True)`, then `shutil.move`. */
  function Relocate(listing: seq<Entry>, k: nat, dir: string): (o: Outcome)
    requires k < |listing|
    ensures o.Aborted? ==> o.listing == listing
    ensures o.Aborted? ==>
      o.error == TargetIsFile(dir) || o.error == DestinationExists(dir, listing[k].name)
    ensures !HasName(listing, dir) ==> o.Done?
  {
    match MakeDirs(listing, dir)
    case Aborted(l, e) => Aborted(l, e)
    case Done(l) =>
      if !HasName(listing, dir) then
        assert l[|listing|] == Entry(dir, true, []);
        assert Find(l, dir) == Some(|listing|);
        assert l[k].name != dir;
        Move(l, k, dir)
      else
        Move(l, k, dir)
  }

  /** Relocating into a bucket that does not exist yet: the bucket is
      created at the end of the listing with the folder as its only entry. */
  lemma RelocateIntoNew(listing: seq<Entry>, k: nat, dir: string)
    requires UniqueNames(listing)
    requires k < |listing| && !HasName(listing, dir)
    ensures Relocate(listing, k, dir) == Done(RemoveAt(listing, k) + [Entry(dir, true, [listing[k]])])
    ensures var l := Relocate(listing, k, dir).listing;
      && UniqueNames(l)
      && !HasName(l, listing[k].name)
      && Lookup(l, dir) == Some(Entry(dir, true, [listing[k]]))
      && Without(l, dir) == Without(RemoveAt(listing, k), dir)
  {
    var folder := listing[k];
    var created := Entry(dir, true, []);
    var l := listing + [created];
    assert MakeDirs(listing, dir) == Done(l);
    assert UniqueNames(l);
    assert l[k] == folder && l[|listing|] == created;
    MoveIntoDirectory(l, k, |listing|);
    var x := created.(children := [] + [folder]);
    assert x == Entry(dir, true, [folder]);
    assert RemoveAt(l[|listing| := x], k) == RemoveAt(listing, k) + [x];
    assert RemoveAt(l, k) == RemoveAt(listing, k) + [created];
    WithoutConcat(RemoveAt(listing, k), [created], dir);
    assert Without([created], dir) == [];
  }

  /** Relocating into an existing bucket directory other than the folder
      itself: `makedirs` does nothing and the move does the rest. */
  lemma RelocateIntoExisting(listing: seq<Entry>, k: nat, c: nat)
    requires UniqueNames(listing)
    requires k < |listing| && c < |listing| && k != c && listing[c].isDir
    ensures var o := Relocate(listing, k, listing[c].name);
      && (o.Aborted? <==> HasName(listing[c].children, listing[k].name))
      && (o.Done? ==>
        && !HasName(o.listing, listing[k].name)
        && Lookup(o.listing, listing[c].name)
           == Some(listing[c].(children := listing[c].children + [listing[k]]))
        && Without(o.listing, listing[c].name) == Without(RemoveAt(listing, k), listing[c].name))
  {
    FindUnique(listing, c);
    assert MakeDirs(listing, listing[c].name) == Done(listing);
    MoveIntoDirectory(listing, k, c);
  }

  /** `run`: the records in spreadsheet order, each one seeing the
      directory as the earlier ones left it; the first error ends the run. */
  function Run(listing: seq<Entry>, ranges: seq<Range>, sim: Scorer, projects: seq<Project>): (o: Outcome)
    ensures (forall i :: 0 <= i < |projects| ==> projects[i].size.None?) ==> o == Done(listing)
    decreases |projects|
  {
    if |projects| == 0 then Done(listing)
    else match Step(listing, ranges, sim, projects[0])
      case Aborted(l, e) => Aborted(l, e)
      case Done(l) =>
        assert forall i :: 1 <= i < |projects| ==> projects[i] == projects[1..][i - 1];
        Run(l, ranges, sim, projects[1..])
  }

  /** Constructing a `FileClassifier` checks both paths before anything
      else; only then does `run` touch the base directory. */
  function Classify(excelPath: string, baseDir: string,
                    isFile: string -> bool, isDirectory: string -> bool,
                    ranges: seq<Range>, sim: Scorer, projects: seq<Project>,
                    listing: seq<Entry>): (r: Result<Outcome, PathError>)
    ensures r.Failure? <==> !isFile(excelPath) || !isDirectory(baseDir)
    ensures r.Failure? ==> r.error == ValidatePaths(excelPath, baseDir, isFile, isDirectory).value
    ensures r.Success? ==> r.value == Run(listing, ranges, sim, projects)
  {
    match ValidatePaths(excelPath, baseDir, isFile, isDirectory)
    case Some(e) => Failure(e)
    case None => Success(Run(listing, ranges, sim, projects))
  }

  /** The children of the directory `name`, or none if there is no such entry. */
  function ChildrenOf(listing: seq<Entry>, name: string): seq<Entry> {
    match Lookup(listing, name)
    case Some(e) => e.children
    case None => []
  }

  /** When the record has a size, folder `k` is the first directory that
      matches it, and the size has a bucket, the step
      creates the bucket directory if needed and moves the folder into it:
      it fails exactly when the bucket name is taken by a file or the
      bucket already holds an entry of the folder's name; otherwise the
      folder is gone from the top level, is the last entry of the bucket,
      and every other top-level entry is kept in order. A folder that is
      itself the bucket directory stays where it is. */
  lemma StepMovesFolder(listing: seq<Entry>, ranges: seq<Range>, sim: Scorer, p: Project,
                        k: nat, dir: string)
    requires UniqueNames(listing)
    requires p.size.Some?
    requires k < |listing| && Matches(p.name, listing[k], sim)
    requires forall j :: 0 <= j < k ==> !Matches(p.name, listing[j], sim)
    requires TargetDir(ranges, p.size.value) == Some(dir)
    ensures var o := Step(listing, ranges, sim, p);
      && (listing[k].name == dir ==> o == Done(listing))
      && (listing[k].name != dir ==>
        && (o.Aborted? <==>
            Lookup(listing, dir).Some?
            && (!Lookup(listing, dir).value.isDir
                || HasName(Lookup(listing, dir).value.children, listing[k].name)))
        && (o.Done? ==>
          && !HasName(o.listing, listing[k].name)
          && Lookup(o.listing, dir) == Some(Entry(dir, true, ChildrenOf(listing, dir) + [listing[k]]))
          && Without(o.listing, dir) == Without(RemoveAt(listing, k), dir)))
  {
    assert FindProjectFolder(p.name, listing, sim) == Some(k);
    assert Step(listing, ranges, sim, p) == Relocate(listing, k, dir);
    if listing[k].name == dir {
      FindUnique(listing, k);
    } else {
      match Find(listing, dir)
      case Some(c) =>
        if listing[c].isDir {
          RelocateIntoExisting(listing, k, c);
        }
      case None =>
        RelocateIntoNew(listing, k, dir);
    }
  }

  /** A step keeps the base directory well-formed. */
  lemma StepWellFormed(listing: seq<Entry>, ranges: seq<Range>, sim: Scorer, p: Project)
    requires WellFormed(listing)
    ensures WellFormed(Step(listing, ranges, sim, p).listing)
  {
    if p.size.Some? {
      match FindProjectFolder(p.name, listing, sim)
      case None =>
      case Some(k) =>
        match TargetDir(ranges, p.size.value)
        case None =>
        case Some(dir) =>
          assert Step(listing, ranges, sim, p) == Relocate(listing, k, dir);
          MakeDirsWellFormed(listing, dir);
          match MakeDirs(listing, dir)
          case Aborted(_, _) =>
          case Done(l) => MoveWellFormed(l, k, dir);
    }
  }

  /** A run, finished or halted, leaves the base directory well-formed. */
  lemma {:induction false} RunWellFormed(listing: seq<Entry>, ranges: seq<Range>, sim: Scorer,
                                         projects: seq<Project>)
    requires WellFormed(listing)
    ensures WellFormed(Run(listing, ranges, sim, projects).listing)
    decreases |projects|
  {
    if |projects| > 0 {
      StepWellFormed(listing, ranges, sim, projects[0]);
      match Step(listing, ranges, sim, projects[0])
      case Aborted(_, _) =>
      case Done(l) => RunWellFormed(l, ranges, sim, projects[1..]);
    }
  }

  /** Running records `a` and then `b` is running `a`, then running `b` on
      the directory as `a` left it; an error in `a` means `b` is never read. */
  lemma {:induction false} RunConcat(listing: seq<Entry>, ranges: seq<Range>, sim: Scorer,
                                     a: seq<Project>, b: seq<Project>)
    ensures Run(listing, ranges, sim, a + b) ==
      match Run(listing, ranges, sim, a)
      case Aborted(l, e) => Aborted(l, e)
      case Done(l) => Run(l, ranges, sim, b)
    decreases |a|
  {
    if |a| == 0 {
      assert a + b == b;
    } else {
      assert (a + b)[0] == a[0];
      assert (a + b)[1..] == a[1..] + b;
      match Step(listing, ranges, sim, a[0])
      case Aborted(_, _) =>
      case Done(l) => RunConcat(l, ranges, sim, a[1..], b);
    }
  }

  /** If no record has both a size and a directory scoring above the
      threshold, a run creates no directory and moves nothing. */
  lemma {:induction false} RunWithoutMatchIsIdle(listing: seq<Entry>, ranges: seq<Range>, sim: Scorer,
                                                 projects: seq<Project>)
    requires forall i, j :: 0 <= i < |projects| && 0 <= j < |listing| && projects[i].size.Some? ==>
      !Matches(projects[i].name, listing[j], sim)
    ensures Run(listing, ranges, sim, projects) == Done(listing)
    decreases |projects|
  {
    if |projects| > 0 {
      assert Step(listing, ranges, sim, projects[0]) == Done(listing);
      assert forall i :: 1 <= i < |projects| ==> projects[i] == projects[1..][i - 1];
      RunWithoutMatchIsIdle(listing, ranges, sim, projects[1..]);
    }
  }
}

=== FILE: file_system.dfy ===
/** The base directory as an abstract, ordered tree, with the two checks
    made before a run and the two operations a classify run performs on
    it: `os.makedirs(..., exist_ok=True)` and `shutil.move`. */
module FileSystem {
  import opened Wrappers

  /** One entry of a directory listing; `children` is the listing of a
      directory, and a file has none. */
  datatype Entry = Entry(name: string, isDir: bool, children: seq<Entry>)

  /** Why the constructor refuses its two paths. */
  datatype PathError = ExcelNotFound(path: string) | BaseNotDirectory(path: string)

  /** Why a move raises: the target path is an existing non-directory, or
      the target directory already holds an entry of the moved name. */
  datatype MoveError = TargetIsFile(path: string) | DestinationExists(dir: string, name: string)

  /** The base directory after an operation. A failed operation raises, so
      `Aborted` keeps the listing as it was when the error occurred. */
  datatype Outcome = Done(listing: seq<Entry>) | Aborted(listing: seq<Entry>, error: MoveError)

  /** `_validate_paths` (and `_validate`): the spreadsheet path must be a
      file, then the base directory must be a directory. The two
      filesystem tests are parameters. */
  function ValidatePaths(excelPath: string, baseDir: string,
                         isFile: string -> bool, isDirectory: string -> bool): (r: Option<PathError>)
    ensures r.None? <==> isFile(excelPath) && isDirectory(baseDir)
    ensures !isFile(excelPath) ==> r == Some(ExcelNotFound(excelPath))
    ensures isFile(excelPath) && !isDirectory(baseDir) ==> r == Some(BaseNotDirectory(baseDir))
  {
    if !isFile(excelPath) then Some(ExcelNotFound(excelPath))
    else if !isDirectory(baseDir) then Some(BaseNotDirectory(baseDir))
    else None
  }

  predicate HasName(es: seq<Entry>, name: string) {
    exists i :: 0 <= i < |es| && es[i].name == name
  }

  /** The position of the first entry called `name`. */
  function Find(es: seq<Entry>, name: string): (r: Option<nat>)
    ensures r.Some? ==>
      && r.value < |es|
      && es[r.value].name == name
      && forall j :: 0 <= j < r.value ==> es[j].name != name
    ensures r.None? <==> !HasName(es, name)
    decreases |es|
  {
    if |es| == 0 then None
    else if es[0].name == name then Some(0)
    else match Find(es[1..], name)
      case None => None
      case Some(k) => Some(k + 1)
  }

  /** The entry a path `base/name` denotes, if any. */
  function Lookup(es: seq<Entry>, name: string): Option<Entry> {
    match Find(es, name)
    case Some(i) => Some(es[i])
    case None => None
  }

  /** No two entries of one listing share a name, as in a real directory. */
  predicate UniqueNames(es: seq<Entry>) {
    forall i, j :: 0 <= i < j < |es| ==> es[i].name != es[j].name
  }

  /** A file has no children, and every directory in the subtree has
      uniquely named entries. */
  predicate WellFormedEntry(e: Entry)
    decreases e
  {
    && (!e.isDir ==> e.children == [])
    && UniqueNames(e.children)
    && forall c :: c in e.children ==> WellFormedEntry(c)
  }

  predicate WellFormed(es: seq<Entry>) {
    UniqueNames(es) && forall i :: 0 <= i < |es| ==> WellFormedEntry(es[i])
  }

  /** In a listing without duplicates, a name is found where it is. */
  lemma FindUnique(es: seq<Entry>, c: nat)
    requires UniqueNames(es)
    requires c < |es|
    ensures Find(es, es[c].name) == Some(c)
    ensures Lookup(es, es[c].name) == Some(es[c])
  {
  }

  /** The listing with the entry at `k` taken out. */
  function RemoveAt(es: seq<Entry>, k: nat): (r: seq<Entry>)
    requires k < |es|
    ensures |r| == |es| - 1
    ensures forall i :: 0 <= i < k ==> r[i] == es[i]
    ensures forall i :: k <= i < |r| ==> r[i] == es[i + 1]
  {
    es[..k] + es[k + 1..]
  }

  /** The listing with every entry called `name` left out. */
  function Without(es: seq<Entry>, name: string): (r: seq<Entry>)
    ensures forall i :: 0 <= i < |r| ==> r[i].name != name
    decreases |es|
  {
    if |es| == 0 then []
    else (if es[0].name == name then [] else [es[0]]) + Without(es[1..], name)
  }

  lemma {:induction false} WithoutConcat(a: seq<Entry>, b: seq<Entry>, name: string)
    ensures Without(a + b, name) == Without(a, name) + Without(b, name)
    decreases |a|
  {
    if |a| == 0 {
      assert a + b == b;
    } else {
      assert (a + b)[0] == a[0];
      assert (a + b)[1..] == a[1..] + b;
      WithoutConcat(a[1..], b, name);
    }
  }

  /** Replacing an entry called `name` by another one called `name` is
      invisible once entries called `name` are left out. */
  lemma WithoutUpdate(es: seq<Entry>, c: nat, x: Entry, name: string)
    requires c < |es|
    requires es[c].name == name && x.name == name
    ensures Without(es[c := x], name) == Without(es, name)
  {
    var u := es[c := x];
    assert es == es[..c] + [es[c]] + es[c + 1..];
    assert u == es[..c] + [x] + es[c + 1..];
    WithoutConcat(es[..c] + [es[c]], es[c + 1..], name);
    WithoutConcat(es[..c], [es[c]], name);
    WithoutConcat(es[..c] + [x], es[c + 1..], name);
    WithoutConcat(es[..c], [x], name);
    assert Without([x], name) == [] == Without([es[c]], name);
  }

  /** `os.makedirs(base/name, exist_ok=True)`: nothing to do when `name` is
      already a directory, `FileExistsError` when it is a file, otherwise a
      new empty directory, listed after the existing entries. */
  function MakeDirs(listing: seq<Entry>, name: string): (o: Outcome)
    ensures o.Aborted? <==> Lookup(listing, name).Some? && !Lookup(listing, name).value.isDir
    ensures o.Aborted? ==> o.listing == listing && o.error == TargetIsFile(name)
    ensures o.Done? ==>
      && |listing| <= |o.listing| <= |listing| + 1
      && o.listing[..|listing|] == listing
      && Lookup(o.listing, name).Some?
      && Lookup(o.listing, name).value.isDir
    ensures o.Done? && !HasName(listing, name) ==> o.listing == listing + [Entry(name, true, [])]
    ensures Lookup(listing, name).Some? && Lookup(listing, name).value.isDir ==> o == Done(listing)
  {
    match Find(listing, name)
    case Some(i) =>
      if listing[i].isDir then Done(listing) else Aborted(listing, TargetIsFile(name))
    case None =>
      var l := listing + [Entry(name, true, [])];
      assert l[|listing|].name == name;
      assert Find(l, name) == Some(|listing|);
      Done(l)
  }

  /** `shutil.move(base/folder, base/dst)` for the entry at `src`: moving a
      path onto itself changes nothing; an absent `dst` makes the move a
      rename; an existing directory `dst` receives the entry as its last
      child unless it already holds that name; an existing file `dst`
      makes the move fail. */
  function Move(listing: seq<Entry>, src: nat, dst: string): (o: Outcome)
    requires src < |listing|
    ensures o.Aborted? ==> o.listing == listing
    ensures listing[src].name == dst ==> o == Done(listing)
    ensures !HasName(listing, dst) ==> o == Done(listing[src := listing[src].(name := dst)])
  {
    var folder := listing[src];
    if folder.name == dst then Done(listing)
    else match Find(listing, dst)
      case None => Done(listing[src := folder.(name := dst)])
      case Some(c) =>
        if !listing[c].isDir then Aborted(listing, TargetIsFile(dst))
        else if HasName(listing[c].children, folder.name) then
          Aborted(listing, DestinationExists(dst, folder.name))
        else
          Done(RemoveAt(listing[c := listing[c].(children := listing[c].children + [folder])], src))
  }

  /** Taking an entry out keeps names unique, and its name is then gone. */
  lemma RemoveAtUnique(es: seq<Entry>, k: nat)
    requires UniqueNames(es) && k < |es|
    ensures UniqueNames(RemoveAt(es, k))
    ensures !HasName(RemoveAt(es, k), es[k].name)
  {
  }

  /** Leaving out the entries called `name`, replacing one of them and
      taking out another entry is just taking out that entry. */
  lemma WithoutRemoveUpdate(es: seq<Entry>, src: nat, c: nat, x: Entry)
    requires src < |es| && c < |es| && src != c
    requires x.name == es[c].name
    ensures Without(RemoveAt(es[c := x], src), x.name) == Without(RemoveAt(es, src), x.name)
  {
    var name := x.name;
    var u := es[c := x];
    WithoutConcat(u[..src], u[src + 1..], name);
    WithoutConcat(es[..src], es[src + 1..], name);
    if c < src {
      assert u[..src] == es[..src][c := x];
      assert u[src + 1..] == es[src + 1..];
      WithoutUpdate(es[..src], c, x, name);
    } else {
      assert u[..src] == es[..src];
      assert u[src + 1..] == es[src + 1..][c - src - 1 := x];
      WithoutUpdate(es[src + 1..], c - src - 1, x, name);
    }
  }

  /** The move of an entry into a different, existing directory `dst`:
      it fails exactly when `dst` already holds an entry of that name, and
      otherwise the entry leaves the top level, becomes the last child of
      `dst`, and every other top-level entry stays, in order. */
  lemma MoveIntoDirectory(listing: seq<Entry>, src: nat, c: nat)
    requires UniqueNames(listing)
    requires src < |listing| && c < |listing|
    requires listing[c].isDir && src != c
    ensures var o := Move(listing, src, listing[c].name);
      && (o.Aborted? <==> HasName(listing[c].children, listing[src].name))
      && (o.Aborted? ==> o.error == DestinationExists(listing[c].name, listing[src].name))
      && (o.Done? ==>
        && UniqueNames(o.listing)
        && !HasName(o.listing, listing[src].name)
        && Lookup(o.listing, listing[c].name)
           == Some(listing[c].(children := listing[c].children + [listing[src]]))
        && Without(o.listing, listing[c].name) == Without(RemoveAt(listing, src), listing[c].name))
  {
    var dst := listing[c].name;
    var folder := listing[src];
    FindUnique(listing, c);
    if !HasName(listing[c].children, folder.name) {
      var x := listing[c].(children := listing[c].children + [folder]);
      var u := listing[c := x];
      var l := RemoveAt(u, src);
      assert Move(listing, src, dst) == Done(l);
      assert UniqueNames(u);
      RemoveAtUnique(u, src);
      var c' := if c < src then c else c - 1;
      assert l[c'] == x;
      FindUnique(l, c');
      WithoutRemoveUpdate(listing, src, c, x);
    }
  }

  /** Adding an entry with a fresh name to a well-formed listing keeps it well-formed. */
  lemma WellFormedAppend(es: seq<Entry>, e: Entry)
    requires WellFormed(es) && WellFormedEntry(e)
    requires !HasName(es, e.name)
    ensures WellFormed(es + [e])
  {
  }

  /** `makedirs` keeps the listing well-formed. */
  lemma MakeDirsWellFormed(listing: seq<Entry>, name: string)
    requires WellFormed(listing)
    ensures WellFormed(MakeDirs(listing, name).listing)
  {
  }

  /** `shutil.move` keeps the listing well-formed. */
  lemma MoveWellFormed(listing: seq<Entry>, src: nat, dst: string)
    requires WellFormed(listing)
    requires src < |listing|
    ensures WellFormed(Move(listing, src, dst).listing)
  {
  }
}

=== FILE: matching.dfy ===
/** What both engines match with: the spreadsheet records and the name
    similarity score, which is `difflib.SequenceMatcher(None, a, b).ratio()`
    in the program. The score is left abstract: any function into
    `[0, 1]` may stand for it. */
module Matching {
  import opened Wrappers

  /** A similarity score on two names. The argument order is kept at every
      call, because the ratio need not be symmetric. */
  type Scorer = f: (string, string) -> real
    | forall a: string, b: string :: 0.0 <= f(a, b) <= 1.0
    witness (a: string, b: string) => 0.0

  /** A folder matches a record in classify mode only above this score. */
  const Threshold: real := 0.8

  /** One spreadsheet row: the name in the first column and the size in
      the second. `None` stands for a size the engine skips: in classify
      mode, a cell on which `float` raises `ValueError`; in report mode, a
      row without a second column. */
  datatype Project = Project(name: string, size: Option<real>)
}

=== FILE: range_config.dfy ===
/** The range configuration: the text triples typed into the range form,
    their validation into an ordered list of labelled half-open size
    intervals, and the first-match lookup both engines bucket sizes with. */
module RangeConfig {
  import opened Wrappers

  /** An upper bound: a whole number, or `float("inf")`. */
  datatype Bound = Fin(n: int) | Inf

  /** A labelled size interval `[min, max)`. */
  datatype Range = Range(min: int, max: Bound, dirName: string)

  /** `m < b`, with every whole number below infinity. */
  predicate Below(m: int, b: Bound) {
    b.Inf? || m < b.n
  }

  /** The interval test `min_size <= size < max_size`. Python compares an
      int with a float exactly, so the comparison is on the reals. */
  predicate Contains(r: Range, size: real) {
    r.min as real <= size && (r.max.Inf? || size < r.max.n as real)
  }

  /** What every range accepted by validation satisfies. */
  predicate WellFormedRange(r: Range) {
    0 <= r.min && Below(r.min, r.max) && r.dirName != ""
  }

  /** The contents of one row of the form: minimum, maximum, folder label. */
  datatype RangeInput = RangeInput(minText: string, maxText: string, dirName: string)

  /** One message of the error list; each carries the value its message shows. */
  datatype RangeError =
    | MinNotDigits(minText: string)
    | MaxNotNumeric(maxText: string)
    | EmptyLabel
    | MinNotBelowMax(min: int, max: Bound)

  /** The pair `(ranges, errors)` returned by `get_ranges`. */
  datatype Validated = Validated(ranges: seq<Range>, errors: seq<RangeError>)

  /** The special maximum that stands for an unbounded range. */
  const InfText: string := "inf"

  /** A decimal digit `str.isdigit()` accepts and `int()` reads: an ASCII
      digit or a fullwidth one (U+FF10 to U+FF19), as a Chinese input
      method types it. */
  predicate IsDigit(c: char) {
    '0' <= c <= '9' || '０' <= c <= '９'
  }

  /** `str.isdigit()` on these digits: false on the empty string. */
  predicate IsDigits(s: string) {
    |s| > 0 && forall i :: 0 <= i < |s| ==> IsDigit(s[i])
  }

  function DigitValue(c: char): nat
    requires IsDigit(c)
  {
    if c <= '9' then c as int - '0' as int else c as int - '０' as int
  }

  /** `int(s)` for a string of decimal digits (leading zeros allowed). */
  function DigitsValue(s: string): nat
    requires forall i :: 0 <= i < |s| ==> IsDigit(s[i])
    decreases |s|
  {
    if |s| == 0 then 0
    else DigitsValue(s[..|s| - 1]) * 10 + DigitValue(s[|s| - 1])
  }

  function DigitChar(d: nat): (c: char)
    requires d < 10
    ensures IsDigit(c)
  {
    ('0' as int + d) as char
  }

  /** `str(n)` for a non-negative int. */
  function ShowNat(n: nat): (s: string)
    ensures IsDigits(s)
    decreases n
  {
    if n < 10 then [DigitChar(n)] else ShowNat(n / 10) + [DigitChar(n % 10)]
  }

  /** The maximum as parsed once it has passed its check. */
  function ParseMax(t: string): Bound
    requires t == InfText || IsDigits(t)
  {
    if t == InfText then Inf else Fin(DigitsValue(t))
  }

  /** The checks of `get_ranges` for one triple, in the source's order; the
      first that fails decides the single error the triple contributes. */
  function ValidateEntry(e: RangeInput): (r: Result<Range, RangeError>)
    ensures r.Success? ==> WellFormedRange(r.value) && r.value.dirName == e.dirName
    ensures r.Success? ==> IsDigits(e.minText) && r.value.min == DigitsValue(e.minText)
    ensures r.Success? ==> (e.maxText == InfText <==> r.value.max.Inf?)
    ensures r.Success? <==>
      && IsDigits(e.minText)
      && (e.maxText == InfText || IsDigits(e.maxText))
      && e.dirName != ""
      && Below(DigitsValue(e.minText), ParseMax(e.maxText))
    ensures r.Success? ==> r.value.max == ParseMax(e.maxText)
    ensures !IsDigits(e.minText) ==> r == Failure(MinNotDigits(e.minText))
    ensures IsDigits(e.minText) && e.maxText != InfText && !IsDigits(e.maxText) ==>
      r == Failure(MaxNotNumeric(e.maxText))
    ensures IsDigits(e.minText) && (e.maxText == InfText || IsDigits(e.maxText)) && e.dirName == "" ==>
      r == Failure(EmptyLabel)
    ensures
      && IsDigits(e.minText) && (e.maxText == InfText || IsDigits(e.maxText)) && e.dirName != ""
      && !Below(DigitsValue(e.minText), ParseMax(e.maxText)) ==>
      r == Failure(MinNotBelowMax(DigitsValue(e.minText), ParseMax(e.maxText)))
  {
    if !IsDigits(e.minText) then Failure(MinNotDigits(e.minText))
    else if e.maxText != InfText && !IsDigits(e.maxText) then Failure(MaxNotNumeric(e.maxText))
    else if e.dirName == "" then Failure(EmptyLabel)
    else
      var lo := DigitsValue(e.minText);
      var hi := ParseMax(e.maxText);
      if !Below(lo, hi) then Failure(MinNotBelowMax(lo, hi))
      else Success(Range(lo, hi, e.dirName))
  }

  /** The triple passes every check. */
  predicate Accepted(e: RangeInput) {
    ValidateEntry(e).Success?
  }

  /** `get_ranges`: every triple is checked on its own; a valid one adds a
      range, an invalid one adds one error, and neither list is reordered. */
  function GetRanges(entries: seq<RangeInput>): (v: Validated)
    ensures |v.ranges| + |v.errors| == |entries|
    ensures forall k :: 0 <= k < |v.ranges| ==> WellFormedRange(v.ranges[k])
    decreases |entries|
  {
    if |entries| == 0 then Validated([], [])
    else
      var rest := GetRanges(entries[1..]);
      match ValidateEntry(entries[0])
      case Success(r) => Validated([r] + rest.ranges, rest.errors)
      case Failure(err) => Validated(rest.ranges, [err] + rest.errors)
  }

  /** The error list is empty exactly when every triple passes its checks. */
  lemma {:induction false} GetRangesNoErrors(entries: seq<RangeInput>)
    ensures GetRanges(entries).errors == [] <==> forall i :: 0 <= i < |entries| ==> Accepted(entries[i])
    decreases |entries|
  {
    if |entries| > 0 {
      assert forall i :: 1 <= i < |entries| ==> entries[i] == entries[1..][i - 1];
      GetRangesNoErrors(entries[1..]);
    }
  }

  /** The result for `a + b` is the result for `a` followed by that for `b`:
      triples are validated independently and in order. */
  lemma {:induction false} GetRangesConcat(a: seq<RangeInput>, b: seq<RangeInput>)
    ensures GetRanges(a + b).ranges == GetRanges(a).ranges + GetRanges(b).ranges
    ensures GetRanges(a + b).errors == GetRanges(a).errors + GetRanges(b).errors
    decreases |a|
  {
    if |a| == 0 {
      assert a + b == b;
    } else {
      var ab := a + b;
      assert ab[0] == a[0];
      assert ab[1..] == a[1..] + b;
      GetRangesConcat(a[1..], b);
    }
  }

  /** When no triple is rejected, the ranges are the triples, parsed, one for one. */
  lemma {:induction false} GetRangesAllValid(entries: seq<RangeInput>)
    requires forall i :: 0 <= i < |entries| ==> Accepted(entries[i])
    ensures |GetRanges(entries).ranges| == |entries|
    ensures forall i :: 0 <= i < |entries| ==>
      ValidateEntry(entries[i]) == Success(GetRanges(entries).ranges[i])
    decreases |entries|
  {
    if |entries| > 0 {
      assert forall i :: 1 <= i < |entries| ==> entries[i] == entries[1..][i - 1];
      GetRangesAllValid(entries[1..]);
    }
  }

  /** `int(str(n)) == n`. */
  lemma {:induction false} ShowNatRoundTrip(n: nat)
    ensures DigitsValue(ShowNat(n)) == n
    decreases n
  {
    if n >= 10 {
      var s := ShowNat(n);
      assert s[..|s| - 1] == ShowNat(n / 10);
      ShowNatRoundTrip(n / 10);
    }
  }

  /** How the form displays a range: `str(min)`, `str(max)` (which is
      `"inf"` for the infinite float) and the label. */
  function Show(r: Range): RangeInput
    requires WellFormedRange(r)
  {
    RangeInput(ShowNat(r.min), if r.max.Inf? then InfText else ShowNat(r.max.n), r.dirName)
  }

  function ShowAll(rs: seq<Range>): (es: seq<RangeInput>)
    requires forall k :: 0 <= k < |rs| ==> WellFormedRange(rs[k])
    ensures |es| == |rs|
    ensures forall k :: 0 <= k < |rs| ==> es[k] == Show(rs[k])
  {
    seq(|rs|, k requires 0 <= k < |rs| => Show(rs[k]))
  }

  /** Validation accepts a displayed well-formed range and gives it back. */
  lemma ValidateShow(r: Range)
    requires WellFormedRange(r)
    ensures ValidateEntry(Show(r)) == Success(r)
  {
    ShowNatRoundTrip(r.min);
    if r.max.Fin? {
      ShowNatRoundTrip(r.max.n);
      assert ShowNat(r.max.n)[0] != InfText[0];
    }
  }

  /** Displaying well-formed ranges and validating the form gives back the
      same ranges, in the same order, and no error. */
  lemma {:induction false} GetRangesShowAll(rs: seq<Range>)
    requires forall k :: 0 <= k < |rs| ==> WellFormedRange(rs[k])
    ensures GetRanges(ShowAll(rs)) == Validated(rs, [])
    decreases |rs|
  {
    if |rs| > 0 {
      var es := ShowAll(rs);
      assert es[1..] == ShowAll(rs[1..]);
      ValidateShow(rs[0]);
      GetRangesShowAll(rs[1..]);
      assert [rs[0]] + rs[1..] == rs;
    }
  }

  /** The ranges the form starts with. */
  const DefaultRanges: seq<Range> := [
    Range(0, Fin(500), "500万以内项目"),
    Range(500, Fin(10000), "500万-1亿元项目"),
    Range(10000, Fin(50000), "1-5亿元项目"),
    Range(50000, Fin(1000000), "5-100亿元项目")
  ]

  /** The default ranges, as the form shows them, pass validation unchanged. */
  lemma DefaultRangesValidate()
    ensures forall k :: 0 <= k < |DefaultRanges| ==> WellFormedRange(DefaultRanges[k])
    ensures GetRanges(ShowAll(DefaultRanges)) == Validated(DefaultRanges, [])
  {
    GetRangesShowAll(DefaultRanges);
  }

  /** Range `k` holds `size` and no earlier range does. */
  predicate IsFirstContaining(ranges: seq<Range>, size: real, k: nat) {
    && k < |ranges|
    && Contains(ranges[k], size)
    && forall j :: 0 <= j < k ==> !Contains(ranges[j], size)
  }

  /** The first range whose interval holds `size`: the scan shared by both
      `_get_target_dir` methods. */
  function FirstContaining(ranges: seq<Range>, size: real): (r: Option<nat>)
    ensures r.Some? ==> IsFirstContaining(ranges, size, r.value)
    ensures r.None? <==> forall j :: 0 <= j < |ranges| ==> !Contains(ranges[j], size)
    decreases |ranges|
  {
    if |ranges| == 0 then None
    else if Contains(ranges[0], size) then Some(0)
    else match FirstContaining(ranges[1..], size)
      case None => None
      case Some(k) => Some(k + 1)
  }
}

=== FILE: report.dfy ===
/** The report engine (`ReportGenerator`): for every directory of the base
    directory, and for every directory inside a directory named after a
    range, find the best-scoring record and describe where the folder is
    and where its record's size says it belongs. Nothing is moved. */
module Report {
  import opened Wrappers
  import opened RangeConfig
  import opened FileSystem
  import opened Matching
  import Classifier

  /** The category reported for a size that no range holds. */
  const Unclassified: string := "未分类"

  /** `_get_target_dir` of the report: the folder name of the first range
      holding the size, or the unclassified label. */
  function TargetDir(ranges: seq<Range>, size: real): (r: string)
    ensures (forall j :: 0 <= j < |ranges| ==> !Contains(ranges[j], size)) ==> r == Unclassified
    ensures forall k: nat :: IsFirstContaining(ranges, size, k) ==> r == ranges[k].dirName
  {
    match FirstContaining(ranges, size)
    case Some(k) => ranges[k].dirName
    case None => Unclassified
  }

  /** The two bucketing methods agree wherever a range holds the size;
      where none does, the classifier has no target and the report says
      unclassified. */
  lemma TargetDirsAgree(ranges: seq<Range>, size: real)
    ensures TargetDir(ranges, size) == Classifier.TargetDir(ranges, size).GetOr(Unclassified)
  {
  }

  /** The running result of `_find_best_match`: the index of the best
      record so far, if any, and its score (`0.0` when there is none). */
  datatype Best = Best(index: Option<nat>, similarity: real)

  /** `b` is what the scan of the first `n` records yields: the earliest
      sized record with the greatest score, provided that score is above
      zero; otherwise no record and score zero. Scores are
      `ratio(folder_name, project_name)`. */
  predicate BestOver(folder: string, projects: seq<Project>, sim: Scorer, n: nat, b: Best) {
    && n <= |projects|
    && match b.index
       case None =>
         && b.similarity == 0.0
         && forall j :: 0 <= j < n && projects[j].size.Some? ==> sim(folder, projects[j].name) <= 0.0
       case Some(k) =>
         && k < n
         && projects[k].size.Some?
         && b.similarity == sim(folder, projects[k].name)
         && 0.0 < b.similarity
         && (forall j :: 0 <= j < n && projects[j].size.Some? ==> sim(folder, projects[j].name) <= b.similarity)
         && (forall j :: 0 <= j < k && projects[j].size.Some? ==> sim(folder, projects[j].name) < b.similarity)
  }

  /** Record `k` is the best match of `folder` among all records. */
  predicate IsBest(folder: string, projects: seq<Project>, sim: Scorer, k: nat) {
    k < |projects| && BestOver(folder, projects, sim, |projects|, Best(Some(k), sim(folder, projects[k].name)))
  }

  /** The loop of `_find_best_match` from record `i` on, with `acc` the
      result so far: records without a size are skipped, and a record
      replaces the best only with a strictly greater score. */
  function BestFrom(folder: string, projects: seq<Project>, sim: Scorer, i: nat, acc: Best): (r: Best)
    requires BestOver(folder, projects, sim, i, acc)
    ensures BestOver(folder, projects, sim, |projects|, r)
    decreases |projects| - i
  {
    if i == |projects| then acc
    else if projects[i].size.None? then BestFrom(folder, projects, sim, i + 1, acc)
    else
      var s := sim(folder, projects[i].name);
      if s > acc.similarity then BestFrom(folder, projects, sim, i + 1, Best(Some(i), s))
      else BestFrom(folder, projects, sim, i + 1, acc)
  }

  /** `_find_best_match`: the earliest sized record of strictly greatest
      score, or no record and `0.0` when every sized record scores zero. */
  function FindBestMatch(folder: string, projects: seq<Project>, sim: Scorer): (b: Best)
    ensures BestOver(folder, projects, sim, |projects|, b)
    ensures 0.0 <= b.similarity <= 1.0
    ensures b.index.None? <==>
      forall j :: 0 <= j < |projects| && projects[j].size.Some? ==> sim(folder, projects[j].name) == 0.0
  {
    BestFrom(folder, projects, sim, 0, Best(None, 0.0))
  }

  /** The scan result is determined by the records: ties cannot leave a choice. */
  lemma BestOverUnique(folder: string, projects: seq<Project>, sim: Scorer, n: nat, b1: Best, b2: Best)
    requires BestOver(folder, projects, sim, n, b1)
    requires BestOver(folder, projects, sim, n, b2)
    ensures b1 == b2
  {
  }

  /** A record without a size never affects the best match: inserting one
      anywhere leaves the score and the matched record as they were. */
  lemma UnsizedRecordIgnored(folder: string, a: seq<Project>, u: Project, b: seq<Project>, sim: Scorer)
    requires u.size.None?
    ensures var withU := FindBestMatch(folder, a + [u] + b, sim);
            var without := FindBestMatch(folder, a + b, sim);
      && withU.similarity == without.similarity
      && (withU.index.None? <==> without.index.None?)
      && (withU.index.Some? ==> (a + [u] + b)[withU.index.value] == (a + b)[without.index.value])
  {
    var ps := a + [u] + b;
    var qs := a + b;
    var w := FindBestMatch(folder, qs, sim);
    var shifted := match w.index
      case None => None
      case Some(k) => Some(if k < |a| then k else k + 1);
    var c := Best(shifted, w.similarity);
    assert forall j :: 0 <= j < |a| ==> ps[j] == qs[j];
    assert ps[|a|] == u;
    assert forall j :: |a| < j < |ps| ==> ps[j] == qs[j - 1];
    assert BestOver(folder, ps, sim, |ps|, c) by {
      match w.index
      case None =>
        forall j | 0 <= j < |ps| && ps[j].size.Some?
          ensures sim(folder, ps[j].name) <= 0.0
        {
          if j > |a| { assert ps[j] == qs[j - 1]; }
        }
      case Some(k) =>
        var k' := if k < |a| then k else k + 1;
        assert ps[k'] == qs[k];
        forall j | 0 <= j < |ps| && ps[j].size.Some?
          ensures sim(folder, ps[j].name) <= c.similarity
        {
          if j > |a| { assert ps[j] == qs[j - 1]; }
        }
        forall j | 0 <= j < k' && ps[j].size.Some?
          ensures sim(folder, ps[j].name) < c.similarity
        {
          if j > |a| { assert ps[j] == qs[j - 1]; }
        }
    }
    BestOverUnique(folder, ps, sim, |ps|, FindBestMatch(folder, ps, sim), c);
  }

  /** One line of the report, in the column order of the written file. */
  datatype ReportRow = ReportRow(
    folderName: string,
    projectName: string,
    similarity: real,
    size: real,
    category: string,
    location: string)

  /** `row` reports the best match of its folder: the record it names is
      the best-scoring sized record, with that record's size and the
      category that size falls in. */
  predicate Describes(row: ReportRow, ranges: seq<Range>, projects: seq<Project>, sim: Scorer) {
    exists k: nat ::
      && k < |projects|
      && IsBest(row.folderName, projects, sim, k)
      && row.projectName == projects[k].name
      && row.size == projects[k].size.value
      && row.similarity == sim(row.folderName, projects[k].name)
      && row.category == TargetDir(ranges, row.size)
  }

  /** Some sized record scores above zero against `folder`. */
  predicate HasPositiveMatch(folder: string, projects: seq<Project>, sim: Scorer) {
    exists j :: 0 <= j < |projects| && projects[j].size.Some? && sim(folder, projects[j].name) > 0.0
  }

  /** The row for one folder found at `location`, or none when no record
      matched it (`if best_match:`). */
  function RowAt(folder: string, location: string, ranges: seq<Range>, projects: seq<Project>,
                 sim: Scorer): (rows: seq<ReportRow>)
    ensures |rows| <= 1
    ensures |rows| == 1 <==> HasPositiveMatch(folder, projects, sim)
    ensures forall row :: row in rows ==>
      && row.folderName == folder
      && row.location == location
      && 0.0 < row.similarity <= 1.0
      && Describes(row, ranges, projects, sim)
  {
    var b := FindBestMatch(folder, projects, sim);
    match b.index
    case None => []
    case Some(k) =>
      var size := projects[k].size.value;
      var row := ReportRow(folder, projects[k].name, b.similarity, size, TargetDir(ranges, size), location);
      assert IsBest(folder, projects, sim, k);
      assert Describes(row, ranges, projects, sim);
      [row]
  }

  /** A top-level directory named after a range is a bucket directory. */
  predicate IsBucketName(ranges: seq<Range>, name: string) {
    exists i :: 0 <= i < |ranges| && ranges[i].dirName == name
  }

  /** The rows for the subdirectories of the bucket directory `bucket`;
      their actual location is the bucket's name. */
  function BucketRows(children: seq<Entry>, bucket: string, ranges: seq<Range>, projects: seq<Project>,
                      sim: Scorer): (rows: seq<ReportRow>)
    ensures forall row :: row in rows ==>
      && Describes(row, ranges, projects, sim)
      && row.location == bucket
      && exists j :: 0 <= j < |children| && children[j].isDir && row.folderName == children[j].name
    decreases |children|
  {
    if |children| == 0 then []
    else
      assert forall j :: 1 <= j < |children| ==> children[j] == children[1..][j - 1];
      (if children[0].isDir then RowAt(children[0].name, bucket, ranges, projects, sim) else [])
      + BucketRows(children[1..], bucket, ranges, projects, sim)
  }

  /** Where a row's folder was found within the entry `e`: inside it when
      `e` is a bucket directory, otherwise `e` itself, located in the base
      directory `baseName`. */
  predicate FoundIn(e: Entry, ranges: seq<Range>, baseName: string, row: ReportRow) {
    && e.isDir
    && if IsBucketName(ranges, e.name) then
         && row.location == e.name
         && exists j :: 0 <= j < |e.children| && e.children[j].isDir && row.folderName == e.children[j].name
       else
         row.folderName == e.name && row.location == baseName
  }

  /** The rows one top-level entry contributes: none for a file. */
  function EntryRows(e: Entry, baseName: string, ranges: seq<Range>, projects: seq<Project>,
                     sim: Scorer): (rows: seq<ReportRow>)
    ensures forall row :: row in rows ==> Describes(row, ranges, projects, sim) && FoundIn(e, ranges, baseName, row)
    ensures !e.isDir ==> rows == []
    ensures e.isDir && !IsBucketName(ranges, e.name) ==>
      && |rows| <= 1
      && (|rows| == 1 <==> HasPositiveMatch(e.name, projects, sim))
  {
    if !e.isDir then []
    else if IsBucketName(ranges, e.name) then BucketRows(e.children, e.name, ranges, projects, sim)
    else RowAt(e.name, baseName, ranges, projects, sim)
  }

  /** The row-building part of `generate`: the top-level entries in
      listing order, each contributing its rows. Every row describes a best
      match and names a folder found where its location says. */
  function Generate(listing: seq<Entry>, baseName: string, ranges: seq<Range>, projects: seq<Project>,
                    sim: Scorer): (rows: seq<ReportRow>)
    ensures forall row :: row in rows ==>
      && Describes(row, ranges, projects, sim)
      && exists i :: 0 <= i < |listing| && FoundIn(listing[i], ranges, baseName, row)
    decreases |listing|
  {
    if |listing| == 0 then []
    else
      assert forall i :: 1 <= i < |listing| ==> listing[i] == listing[1..][i - 1];
      EntryRows(listing[0], baseName, ranges, projects, sim)
      + Generate(listing[1..], baseName, ranges, projects, sim)
  }

  /** Rows follow the listing: the report of `a + b` is that of `a` followed by that of `b`. */
  lemma {:induction false} GenerateConcat(a: seq<Entry>, b: seq<Entry>, baseName: string,
                                          ranges: seq<Range>, projects: seq<Project>, sim: Scorer)
    ensures Generate(a + b, baseName, ranges, projects, sim)
         == Generate(a, baseName, ranges, projects, sim) + Generate(b, baseName, ranges, projects, sim)
    decreases |a|
  {
    if |a| == 0 {
      assert a + b == b;
    } else {
      assert (a + b)[0] == a[0];
      assert (a + b)[1..] == a[1..] + b;
      GenerateConcat(a[1..], b, baseName, ranges, projects, sim);
    }
  }

  lemma {:induction false} BucketRowsConcat(a: seq<Entry>, b: seq<Entry>, bucket: string,
                                            ranges: seq<Range>, projects: seq<Project>, sim: Scorer)
    ensures BucketRows(a + b, bucket, ranges, projects, sim)
         == BucketRows(a, bucket, ranges, projects, sim) + BucketRows(b, bucket, ranges, projects, sim)
    decreases |a|
  {
    if |a| == 0 {
      assert a + b == b;
    } else {
      assert (a + b)[0] == a[0];
      assert (a + b)[1..] == a[1..] + b;
      BucketRowsConcat(a[1..], b, bucket, ranges, projects, sim);
    }
  }

  /** The report holds the rows of every entry of the listing. */
  lemma EntryRowsInGenerate(listing: seq<Entry>, i: nat, baseName: string,
                            ranges: seq<Range>, projects: seq<Project>, sim: Scorer)
    requires i < |listing|
    ensures forall row :: row in EntryRows(listing[i], baseName, ranges, projects, sim) ==>
      row in Generate(listing, baseName, ranges, projects, sim)
  {
    assert listing == listing[..i] + ([listing[i]] + listing[i + 1..]);
    GenerateConcat(listing[..i], [listing[i]] + listing[i + 1..], baseName, ranges, projects, sim);
    GenerateConcat([listing[i]], listing[i + 1..], baseName, ranges, projects, sim);
  }

  /** Every top-level directory that is not a bucket is reported, located
      in the base directory, as soon as some sized record scores above zero. */
  lemma TopLevelFolderReported(listing: seq<Entry>, i: nat, baseName: string,
                               ranges: seq<Range>, projects: seq<Project>, sim: Scorer)
    requires i < |listing| && listing[i].isDir && !IsBucketName(ranges, listing[i].name)
    ensures forall row :: row in RowAt(listing[i].name, baseName, ranges, projects, sim) ==>
      row in Generate(listing, baseName, ranges, projects, sim)
    ensures HasPositiveMatch(listing[i].name, projects, sim) ==>
      exists row :: row in Generate(listing, baseName, ranges, projects, sim)
        && row.folderName == listing[i].name && row.location == baseName
  {
    EntryRowsInGenerate(listing, i, baseName, ranges, projects, sim);
    var rs := RowAt(listing[i].name, baseName, ranges, projects, sim);
    if HasPositiveMatch(listing[i].name, projects, sim) {
      assert rs[0] in rs;
    }
  }

  /** Every directory inside a bucket directory is reported, located in
      that bucket, as soon as some sized record scores above zero. */
  lemma BucketFolderReported(listing: seq<Entry>, i: nat, j: nat, baseName: string,
                             ranges: seq<Range>, projects: seq<Project>, sim: Scorer)
    requires i < |listing| && listing[i].isDir && IsBucketName(ranges, listing[i].name)
    requires j < |listing[i].children| && listing[i].children[j].isDir
    ensures forall row ::
      row in RowAt(listing[i].children[j].name, listing[i].name, ranges, projects, sim) ==>
      row in Generate(listing, baseName, ranges, projects, sim)
    ensures HasPositiveMatch(listing[i].children[j].name, projects, sim) ==>
      exists row :: row in Generate(listing, baseName, ranges, projects, sim)
        && row.folderName == listing[i].children[j].name && row.location == listing[i].name
  {
    var e := listing[i];
    var cs := e.children;
    EntryRowsInGenerate(listing, i, baseName, ranges, projects, sim);
    assert cs == cs[..j] + ([cs[j]] + cs[j + 1..]);
    BucketRowsConcat(cs[..j], [cs[j]] + cs[j + 1..], e.name, ranges, projects, sim);
    BucketRowsConcat([cs[j]], cs[j + 1..], e.name, ranges, projects, sim);
    assert BucketRows([cs[j]], e.name, ranges, projects, sim) == RowAt(cs[j].name, e.name, ranges, projects, sim) + [];
    var rs := RowAt(cs[j].name, e.name, ranges, projects, sim);
    if HasPositiveMatch(cs[j].name, projects, sim) {
      assert rs[0] in rs;
    }
  }

  /** A record without a size changes no row of the report. */
  lemma UnsizedRecordLeavesRow(folder: string, location: string, ranges: seq<Range>,
                               a: seq<Project>, u: Project, b: seq<Project>, sim: Scorer)
    requires u.size.None?
    ensures RowAt(folder, location, ranges, a + [u] + b, sim) == RowAt(folder, location, ranges, a + b, sim)
  {
    UnsizedRecordIgnored(folder, a, u, b, sim);
  }

  lemma {:induction false} UnsizedRecordLeavesBucketRows(children: seq<Entry>, bucket: string, ranges: seq<Range>,
                                                         a: seq<Project>, u: Project, b: seq<Project>, sim: Scorer)
    requires u.size.None?
    ensures BucketRows(children, bucket, ranges, a + [u] + b, sim) == BucketRows(children, bucket, ranges, a + b, sim)
    decreases |children|
  {
    if |children| > 0 {
      UnsizedRecordLeavesRow(children[0].name, bucket, ranges, a, u, b, sim);
      UnsizedRecordLeavesBucketRows(children[1..], bucket, ranges, a, u, b, sim);
    }
  }

  /** A record without a size changes nothing in the report. */
  lemma {:induction false} UnsizedRecordLeavesReport(listing: seq<Entry>, baseName: string, ranges: seq<Range>,
                                                     a: seq<Project>, u: Project, b: seq<Project>, sim: Scorer)
    requires u.size.None?
    ensures Generate(listing, baseName, ranges, a + [u] + b, sim) == Generate(listing, baseName, ranges, a + b, sim)
    decreases |listing|
  {
    if |listing| > 0 {
      var e := listing[0];
      if e.isDir {
        UnsizedRecordLeavesRow(e.name, baseName, ranges, a, u, b, sim);
        UnsizedRecordLeavesBucketRows(e.children, e.name, ranges, a, u, b, sim);
      }
      UnsizedRecordLeavesReport(listing[1..], baseName, ranges, a, u, b, sim);
    }
  }

  /** Constructing a `ReportGenerator` checks the same two paths before any
      row is built. */
  function GenerateReport(excelPath: string, baseDir: string, baseName: string,
                          isFile: string -> bool, isDirectory: string -> bool,
                          ranges: seq<Range>, projects: seq<Project>, sim: Scorer,
                          listing: seq<Entry>): (r: Result<seq<ReportRow>, PathError>)
    ensures r.Failure? <==> !isFile(excelPath) || !isDirectory(baseDir)
    ensures r.Failure? ==> r.error == ValidatePaths(excelPath, baseDir, isFile, isDirectory).value
    ensures r.Success? ==> r.value == Generate(listing, baseName, ranges, projects, sim)
  {
    match ValidatePaths(excelPath, baseDir, isFile, isDirectory)
    case Some(e) => Failure(e)
    case None => Success(Generate(listing, baseName, ranges, projects, sim))
  }
}

=== FILE: scenarios.dfy ===
/** Concrete runs of the engines on small inputs: the range form, the
    classify run and the report on one hand-written directory. */
module Scenarios {
  import opened Wrappers
  import opened RangeConfig
  import opened FileSystem
  import opened Matching
  import Classifier
  import Report

  /** A malformed maximum rejects its own triple only. */
  lemma MalformedMaximumRejected()
    ensures GetRanges([RangeInput("0", "500", "A"), RangeInput("500", "abc", "B")])
         == Validated([Range(0, Fin(500), "A")], [MaxNotNumeric("abc")])
  {
    var es := [RangeInput("0", "500", "A"), RangeInput("500", "abc", "B")];
    assert ShowNat(0) == "0" && ShowNat(500) == "500";
    ShowNatRoundTrip(0);
    ShowNatRoundTrip(500);
    assert es[1..] == [RangeInput("500", "abc", "B")];
    assert !IsDigits("abc") by { assert !IsDigit("abc"[0]); }
  }

  /** A minimum not below its maximum is rejected. */
  lemma InvertedRangeRejected()
    ensures GetRanges([RangeInput("10", "5", "A")]) == Validated([], [MinNotBelowMax(10, Fin(5))])
  {
    assert ShowNat(10) == "10" && ShowNat(5) == "5";
    ShowNatRoundTrip(10);
    ShowNatRoundTrip(5);
  }

  /** An empty minimum is not a number. */
  lemma EmptyMinimumRejected()
    ensures GetRanges([RangeInput("", "5", "A")]) == Validated([], [MinNotDigits("")])
  {
  }

  /** Fullwidth digits, as a Chinese input method types them, are read as numbers. */
  lemma FullwidthRangeAccepted()
    ensures ValidateEntry(RangeInput("５００", "１０００", "X")) == Success(Range(500, Fin(1000), "X"))
  {
    assert IsDigits("５００") && IsDigits("１０００");
    assert DigitsValue("５００") == 500 by {
      assert "５００"[..2] == "５０" && "５０"[..1] == "５" && "５"[..0] == "";
    }
    assert DigitsValue("１０００") == 1000 by {
      assert "１０００"[..3] == "１００" && "１００"[..2] == "１０";
      assert "１０"[..1] == "１" && "１"[..0] == "";
    }
  }

  const SmallBig: seq<Range> := [Range(0, Fin(500), "Small"), Range(500, Inf, "Big")]

  /** Scores names equal up to `_` versus space as the ratio does (12 of
      13 characters in common), identical names as 1, anything else as 0. */
  const Fixture: Scorer := (a: string, b: string) =>
    if a == b then 1.0
    else if a == "Alpha_Project" && b == "Alpha Project" then 12.0 / 13.0
    else 0.0

  /** A large size falls in the unbounded range, never in the small one. */
  lemma LargeSizeIsBig()
    ensures Classifier.TargetDir(SmallBig, 100000.0) == Some("Big")
    ensures Report.TargetDir(SmallBig, 100000.0) == "Big"
  {
    assert !Contains(SmallBig[0], 100000.0);
    assert IsFirstContaining(SmallBig, 100000.0, 1);
  }

  /** A matching folder is moved into the created bucket directory. */
  lemma AlphaMovedIntoSmall()
    ensures Classifier.Run([Entry("Alpha Project", true, [])], SmallBig, Fixture,
                           [Project("Alpha_Project", Some(300.0))])
         == Done([Entry("Small", true, [Entry("Alpha Project", true, [])])])
  {
    var listing := [Entry("Alpha Project", true, [])];
    var p := Project("Alpha_Project", Some(300.0));
    assert Classifier.FindProjectFolder(p.name, listing, Fixture) == Some(0);
    assert IsFirstContaining(SmallBig, 300.0, 0);
    assert Classifier.TargetDir(SmallBig, 300.0) == Some("Small");
    assert !HasName(listing, "Small");
    var l := listing + [Entry("Small", true, [])];
    assert MakeDirs(listing, "Small") == Done(l);
    assert Find(l, "Small") == Some(1);
    assert !HasName(l[1].children, "Alpha Project");
    var u := l[1 := l[1].(children := [Entry("Alpha Project", true, [])])];
    assert RemoveAt(u, 0) == [Entry("Small", true, [Entry("Alpha Project", true, [])])];
    assert l[0].name != "Small" by { assert l[0].name[0] != "Small"[0]; }
    assert l[1].children + [l[0]] == [l[0]];
    assert Move(l, 0, "Small") == Done(RemoveAt(u, 0));
    assert Classifier.Step(listing, SmallBig, Fixture, p)
        == Done([Entry("Small", true, [Entry("Alpha Project", true, [])])]);
  }

  /** A row whose size did not parse is skipped, and nothing changes. */
  lemma UnparsedSizeIgnored()
    ensures Classifier.Run([Entry("Alpha Project", true, [])], SmallBig, Fixture,
                           [Project("Alpha_Project", None)])
         == Done([Entry("Alpha Project", true, [])])
  {
  }

  /** The directory is listed afresh for each record, so a bucket
      directory made for one record can be matched, and moved, by a later one. */
  lemma BucketDirectoryMatchedLater()
    ensures Classifier.Run([Entry("Alpha", true, [])], SmallBig, Fixture,
                           [Project("Alpha", Some(300.0)), Project("Small", Some(1000.0))])
         == Done([Entry("Big", true, [Entry("Small", true, [Entry("Alpha", true, [])])])])
  {
    var ps := [Project("Alpha", Some(300.0)), Project("Small", Some(1000.0))];
    var l0 := [Entry("Alpha", true, [])];
    var l1 := [Entry("Small", true, [Entry("Alpha", true, [])])];
    var l2 := [Entry("Big", true, [Entry("Small", true, [Entry("Alpha", true, [])])])];
    assert Classifier.FindProjectFolder("Alpha", l0, Fixture) == Some(0);
    assert IsFirstContaining(SmallBig, 300.0, 0);
    assert Classifier.TargetDir(SmallBig, 300.0) == Some("Small");
    assert !HasName(l0, "Small");
    var m0 := l0 + [Entry("Small", true, [])];
    assert Find(m0, "Small") == Some(1);
    assert RemoveAt(m0[1 := l1[0]], 0) == l1;
    assert m0[0].name != "Small" by { assert m0[0].name[0] != "Small"[0]; }
    assert m0[1].children + [m0[0]] == [m0[0]];
    assert Move(m0, 0, "Small") == Done(l1);
    assert Classifier.Step(l0, SmallBig, Fixture, ps[0]) == Done(l1);
    assert Classifier.FindProjectFolder("Small", l1, Fixture) == Some(0);
    assert !Contains(SmallBig[0], 1000.0);
    assert IsFirstContaining(SmallBig, 1000.0, 1);
    assert Classifier.TargetDir(SmallBig, 1000.0) == Some("Big");
    assert !HasName(l1, "Big");
    var m1 := l1 + [Entry("Big", true, [])];
    assert Find(m1, "Big") == Some(1);
    assert RemoveAt(m1[1 := l2[0]], 0) == l2;
    assert m1[0].name != "Big" by { assert m1[0].name[0] != "Big"[0]; }
    assert m1[1].children + [m1[0]] == [m1[0]];
    assert Move(m1, 0, "Big") == Done(l2);
    assert Classifier.Step(l1, SmallBig, Fixture, ps[1]) == Done(l2);
    assert ps[1..] == [ps[1]];
    assert Classifier.Run(l1, SmallBig, Fixture, ps[1..]) == Done(l2);
  }

  /** With equal scores the earlier record is reported; a folder no sized
      record scores above zero gets no row. */
  lemma ReportTiesAndMisses()
    ensures Report.Generate(
              [Entry("Alpha", true, []), Entry("Beta", true, []), Entry("notes.txt", false, [])],
              "base", SmallBig,
              [Project("Alpha", None), Project("Alpha", Some(600.0)), Project("Alpha", Some(20.0))],
              Fixture)
         == [Report.ReportRow("Alpha", "Alpha", 1.0, 600.0, "Big", "base")]
  {
    var ps := [Project("Alpha", None), Project("Alpha", Some(600.0)), Project("Alpha", Some(20.0))];
    var listing := [Entry("Alpha", true, []), Entry("Beta", true, []), Entry("notes.txt", false, [])];
    var b := Report.FindBestMatch("Alpha", ps, Fixture);
    assert Report.BestOver("Alpha", ps, Fixture, 3, Report.Best(Some(1), 1.0));
    Report.BestOverUnique("Alpha", ps, Fixture, 3, b, Report.Best(Some(1), 1.0));
    assert !Contains(SmallBig[0], 600.0);
    assert IsFirstContaining(SmallBig, 600.0, 1);
    assert !Report.IsBucketName(SmallBig, "Alpha");
    assert !Report.IsBucketName(SmallBig, "Beta");
    assert !Report.HasPositiveMatch("Beta", ps, Fixture);
    assert listing[1..] == [Entry("Beta", true, []), Entry("notes.txt", false, [])];
    assert listing[1..][1..] == [Entry("notes.txt", false, [])];
  }
}

=== FILE: wrappers.dfy ===
/** Option and Result, the two failure-carrying datatypes the model uses
    for Python's `None` returns and raised exceptions. */
module Wrappers {

  /** `None` stands for Python's `None`; `Some(v)` for a present value. */
  datatype Option<+T> = None | Some(value: T) {

    /** The carried value, or `default` when there is none. */
    function GetOr(default: T): T {
      match this
      case Some(v) => v
      case None => default
    }
  }

  /** The outcome of a check that either yields a value or raises an error. */
  datatype Result<+T, +E> = Success(value: T) | Failure(error: E)
}
